=== FILE: README.md ===
# Zencrypt: a Dafny model of its own logic

Zencrypt is a hashing and encryption tool with a command-line menu and a Flask web application. Nearly all of its work is done by calls into a cryptography library. This project models the parts that have logic of their own and proves properties about them:

- **The salted digest.** `generate_hash` and `verify_hash` compute the lowercase hex SHA-256 of `text + salt`. The CLI hash loop hashes entries until the user types `exit`.
- **The password-encrypted file container.** `encrypt_file` / `decrypt_file` write and read `salt(16) ‖ iv(16) ‖ ciphertext`. The key is PBKDF2-HMAC-SHA256 (section 5.2 of RFC 8018) with 32 bytes and 100000 iterations. The cipher is AES in CFB mode (NIST SP 800-38A section 6.3). The same code appears four times: `utils.py:62-102`, `zencrypt/utils.py:41-80`, `zencrypt/zencrypt_cli.py:84-146` and `cipher/zencrypt.py:73-134`. It is modelled once, in `FileContainer`.
- **The "PGP" helpers.** These are RSA-OAEP (section 7.1 of RFC 8017) with base64 transport (section 4 of RFC 4648).
- **The CLI PGP menu** (`pgp_encryption_menu`, the same in both CLI revisions). It is a state machine over menu choices.
- **The web application's per-user key tables.** `initialize_key`, `rotate_key`, `/import-key` and `/pgp/generate` act on the `Key` and `PGPKey` tables inside a commit/rollback transaction. `safe_db_operation` is also modelled.

The library primitives are fields of a `Crypto` value: SHA-256, PBKDF2, AES-CFB, RSA-OAEP and the UTF-8 codec. The model assumes nothing about them except the laws in `Primitives`, which a lemma names in its `requires` when it needs them:

- a SHA-256 digest is 32 bytes;
- PBKDF2 returns the requested length;
- AES-CFB preserves length, and decryption inverts encryption under the same key and IV;
- OAEP decryption inverts encryption under a matching key pair;
- OAEP encryption refuses a message longer than its key's limit, which is the modulus size minus 66 bytes. The limit is 190 bytes for the generated 2048-bit keys, and more for a larger imported key;
- UTF-8 decoding inverts encoding.

Base64 and hex encoding are implemented and proved to round-trip.

Randomness and I/O become parameters:

- the salt, the IV and generated keys;
- the bytes of the input file;
- the text a key import read;
- whether a key file could be written;
- whether a database commit succeeded.

Files: `wrappers.dfy`, `primitives.dfy`, `hex.dfy`, `base64.dfy`, `digest.dfy`, `file_container.dfy`, `pgp.dfy`, `pgp_menu.dfy`, `key_table.dfy`, `key_store.dfy`, `text.dfy`, `safe_db.dfy`.

Two behaviours of the code are worth stating, because they are easy to misread:

- The CLI menu's decrypt and import branches catch their exceptions. Its encrypt branch (`zencrypt/zencrypt_cli.py:259-263`, `cipher/zencrypt.py:256-263`) is outside any `try`, so a failing OAEP encryption ends the menu. The model gives this the status `Aborted`, and `PgpMenu.LongMessageAbortsMenu` shows one input that triggers it.
- `decrypt_file` (`zencrypt/zencrypt_cli.py:131-146`) slices the 32-byte header without checking the input's length. A short input is refused only later, when AES-CFB rejects the short IV, and `FileContainer.DecryptFile` models that error.

## Model

| member | source | states |
|---|---|---|
| `Hex.Encode` | utils.py:45 | `hexdigest()` writes two lowercase hex digits per byte: the text is twice as long as the bytes and holds only `0-9a-f` |
| `Hex.DecodeEncode` | utils.py:45 | decoding the lowercase hex text of a byte string gives the bytes back, so `hexdigest()` loses nothing |
| `Digest.GenerateHash` | utils.py:44-45 | the digest is the hex of SHA-256 over the UTF-8 bytes of `text + salt`: twice the hash length and lowercase hex only |
| `Digest.DigestShape` | zencrypt/utils.py:24-25 | a digest is 64 characters long |
| `Digest.DefaultSaltIsTextAlone` | utils.py:44 | with the default salt `""` the digest is that of the text alone |
| `Digest.OnlyConcatenationMatters` | zencrypt/utils.py:25 | two (text, salt) pairs with the same concatenation, such as ("ab","c") and ("a","bc"), hash alike |
| `Digest.SameDigestIffSameHash` | utils.py:45 | two digests are equal exactly when the underlying SHA-256 values are equal |
| `Digest.VerifyHash` | zencrypt/zencrypt_cli.py:414-426 | verification succeeds only for a string of lowercase hex digits of the digest's length; it is an exact compare with the recomputed digest |
| `Digest.GeneratedHashVerifies` | cipher/zencrypt.py:425-437 | the digest printed for a text and salt verifies against them |
| `Digest.VerifiedHashIsUnique` | cipher/zencrypt.py:430-435 | at most one entered string verifies for a given text and salt |
| `Digest.UppercaseDigestFails` | zencrypt/zencrypt_cli.py:419-424 | the compare is case-sensitive: the upper-case form of a digest that contains a letter fails |
| `Digest.MainLoop` | zencrypt/zencrypt_cli.py:428-444 | the loop stops at the first "exit" without hashing it; every earlier entry increments `counter` and its digest is `text + salt` hashed (same loop at cipher/zencrypt.py:439-456) |
| `FileContainer.GenerateKey` | utils.py:93-102 | the key is PBKDF2 with SHA-256, 100000 iterations and a 32-byte length, so it is 32 bytes long |
| `FileContainer.Frame` | utils.py:75 | the written file is salt, then IV, then ciphertext: 32 bytes longer than the ciphertext, with each field at its offset |
| `FileContainer.Parse` | utils.py:81-83 | the slices at 16 and 32 never fail, and they re-concatenate to the input; salt and IV are full length exactly when the input has 32 bytes or more; a shorter input gives an IV shorter than 16 bytes and no ciphertext |
| `FileContainer.ParseFrame` | zencrypt/utils.py:54-62 | parsing what framing wrote recovers exactly the salt, IV and ciphertext |
| `FileContainer.EncryptFile` | zencrypt/zencrypt_cli.py:116-129 | the output starts with the salt and IV and, under the cipher laws, is `32 + |plaintext|` bytes long |
| `FileContainer.DecryptFile` | zencrypt/zencrypt_cli.py:131-146 | decryption fails exactly when the input is shorter than the 32-byte header (the IV is short); otherwise it decrypts the tail with the key re-derived from the stored salt and the stored IV |
| `FileContainer.DecryptEncrypt` | cipher/zencrypt.py:104-134 | with the same password, decrypting the encrypted file returns the original bytes |
| `Base64.Encode` | utils.py:142 | `b64encode` writes whole four-character quanta over the RFC 4648 alphabet, with `=` padding only |
| `Base64.Decode` | utils.py:151 | the strict decoder accepts only texts made of whole four-character quanta, and yields at most three bytes per quantum |
| `Base64.DecodeEncode` | utils.py:142-151 | base64-decoding the encoded ciphertext returns it unchanged |
| `Pgp.EncryptMessage` | utils.py:127-142 | encryption succeeds exactly when OAEP encryption of the UTF-8 message succeeds, and its text base64-decodes to that ciphertext |
| `Pgp.DecryptMessage` | utils.py:144-161 | a decrypted message exists if and only if the input decodes as base64, OAEP decryption of the decoded bytes succeeds, and the plaintext is valid UTF-8; it is then that UTF-8 text |
| `Pgp.DecryptEncrypt` | utils.py:127-161 | a message encrypted to a public key decrypts to the same message under the matching private key |
| `Pgp.LongMessageFails` | zencrypt/zencrypt_cli.py:161-170 | a message whose UTF-8 bytes exceed the public key's OAEP limit (modulus bytes minus 66) cannot be encrypted |
| `Pgp.LongMessageFails2048` | zencrypt/zencrypt_cli.py:152-170 | under a generated 2048-bit key, a message over 190 UTF-8 bytes cannot be encrypted |
| `PgpMenu.Step` | zencrypt/zencrypt_cli.py:258-294 | one choice. A successful encryption sets the message to the base64 ciphertext, and a successful decryption sets it to the plaintext. A successful import sets the public key to the loaded key. Copying a non-empty message puts it on the clipboard, and clearing empties the clipboard. Nothing else changes those fields. "7" leaves. Only a failed encryption or export aborts, and an abort changes nothing |
| `PgpMenu.PgpEncryptionMenu` | zencrypt/zencrypt_cli.py:235-294 | the loop, starting from an empty message, ends in the state and status that the choice-by-choice run gives (same menu at cipher/zencrypt.py:230-301) |
| `PgpMenu.PublicKeyOnlyFromImports` | zencrypt/zencrypt_cli.py:277-283 | over any run, the final public key is the initial one or a key that a successful import loaded |
| `PgpMenu.MessageOnlyFromEncryptOrDecrypt` | cipher/zencrypt.py:256-275 | a run without an encryption and without a successful decryption leaves the message unchanged |
| `PgpMenu.ClipboardOnlyFromCopyOrClear` | cipher/zencrypt.py:287-297 | over any run, the clipboard ends unchanged, or empty after a clear, or non-empty after a copy |
| `PgpMenu.FailedDecryptKeepsSession` | zencrypt/zencrypt_cli.py:264-272 | a decryption that raises leaves message, key and clipboard as they were |
| `PgpMenu.CopyNeedsMessage` | zencrypt/zencrypt_cli.py:284-288 | with no message, copying changes nothing |
| `PgpMenu.EncryptThenDecrypt` | cipher/zencrypt.py:256-273 | while the public key still belongs to the session's private key, decrypting the message just encrypted sets the message back to the plaintext |
| `PgpMenu.LongMessageAbortsMenu` | zencrypt/zencrypt_cli.py:259-263 | encrypting a message over the OAEP limit of the session's current public key ends the menu with the session unchanged |
| `KeyTable.FirstActive` | webapp.py:85 | the lookup finds the user's first active row, or reports that the user has none |
| `KeyTable.DeactivateAll` | webapp.py:727 | the bulk update clears every active flag of the user and touches no other user's row |
| `KeyTable.Initialized` | webapp.py:85-102 | the old rows stay as they were, and a row is added exactly when the user had no active key. Afterwards the user always has an active key: the one found before, or else the new row |
| `KeyTable.Rotated` | webapp.py:118-131 | rotation deactivates the user's first active key and appends the new active row. Every other existing row stays as it was, including any further active row of the user |
| `KeyTable.Replaced` | webapp.py:725-736 | import (and PGP generation) only clears the active flag of the user's old rows: each old row keeps its user and key value as inactive history. It appends the new active row and leaves other users' rows as they were |
| `KeyTable.InitializedCount` | webapp.py:82-107 | initialising gives a user with no active key exactly one and changes no other count |
| `KeyTable.RotatedCount` | webapp.py:114-132 | rotating keeps each user's active count, except that a user with none gets one; so it does not repair a user with two |
| `KeyTable.ReplacedCount` | webapp.py:724-737 | after an import the user has exactly one active key, the imported one, and other counts are unchanged |
| `KeyTable.InitializePreservesSingleActive` | webapp.py:85-102 | initialising keeps "at most one active key per user" |
| `KeyTable.RotatePreservesSingleActive` | webapp.py:118-131 | if each user had at most one active key before, rotation keeps that, and the new key is the user's only active key |
| `KeyTable.ReplacePreservesSingleActive` | webapp.py:781-791 | deactivate-all-then-add establishes "at most one active key" for the user, whatever the table held before |
| `KeyTable.OtherUsersUnchanged` | webapp.py:118 | initialise, rotate and replace leave every other user's rows exactly as they were |
| `KeyStore.Database.ActiveKey` | webapp.py:700-708 | a key is exported exactly when the user has an active key |
| `KeyStore.Database.InitializeKey` | webapp.py:82-107 | returns the active key without adding a row; or commits one new active row and returns it; or rolls back and returns the unstored fallback key |
| `KeyStore.Database.RotateKey` | webapp.py:114-136 | on commit the table is the rotated table and the new key is the user's only active key; on failure the table is unchanged and the result is None |
| `KeyStore.Database.ImportKey` | webapp.py:712-740 | no file means no change; otherwise the stripped UTF-8 text becomes the user's only active key when decoding and commit succeed, and the table is unchanged otherwise |
| `KeyStore.Database.GeneratePgp` | webapp.py:772-795 | on commit the new pair is the user's only active PGP key and the `Key` table is untouched; on failure nothing is stored |
| `SafeDb.SafeDbOperation` | webapp.py:431-439 | "Database not connected" when `db` is unset; exactly the returned value and no error on success; no value and the exception text on failure; never both a value and an error |
| `SafeDb.WebappTestCases` | tests/test_webapp.py:24-46 | the three unit-test cases: no database gives "Database not connected" and no result; an operation returning "success" gives it back with no error; an operation raising "Test exception" gives that text and no result |
| `Text.Strip` | webapp.py:725 | the result is the input minus a run of whitespace at each end, and neither starts nor ends with whitespace |
| `Text.StripIdempotent` | webapp.py:725 | stripping a stripped key changes nothing |

## Left out

- The cryptographic primitives themselves. SHA-256, PBKDF2, AES-CFB, RSA key generation, RSA-OAEP, PEM serialisation and UTF-8 are library calls. They are uninterpreted, and only the laws above are assumed of them.
- `Pgp.EncryptMessage`: OAEP encryption draws a random seed (section 7.1.1 of RFC 8017), but `rsaOaepEncrypt` is a function, so the model yields one ciphertext per key and message. Through `PgpMenu.Step`, encrypting the same plaintext twice therefore gives the same message in the model, where the program gives different ciphertexts. No lemma relies on this.
- Fernet: `encrypt_text` / `decrypt_text`, `get_cipher_suite`, the web encrypt/decrypt/file routes, and `file_page`. `file_page` draws a salt and reads a password but never uses them, and encrypts with the user's Fernet key. None of these has password-based logic of its own.
- Randomness and file I/O. `os.urandom(16)` becomes the `Block16` parameters. File contents are byte strings, and generated keys are parameters.
- Startup key loading and creation of the global key file (`utils.py:34-42`, `zencrypt/zencrypt_cli.py:63-69`). This is process-start I/O.
- Flask routing, templates, sessions, JWT, login and registration. The logged-in user is the `u` parameter, and the not-logged-in redirects are not modelled. All of `zencrypt/webapp.py` is left out too.
- The ORM model (`models.py`) is not part of this model. New `Key` and `PGPKey` rows are assumed to default to `active = True`, and `.first()` is taken to return the first row in table order.
- Database transactions are reduced to "commit keeps the changes, a failure leaves the stored table as it was". Isolation and concurrent requests are not modelled.
- Exception sources are merged into one flag. For `rotate_key`, `/import-key` and `/pgp/generate`, any exception inside the `try` is the single `commitSucceeds = false` case. For `/pgp/generate`, this includes a failure in key generation. For `initialize_key`, the flag covers only the add and commit inside its `try` (webapp.py:99-107).
- `KeyStore.Database.InitializeKey`: the lookup (webapp.py:85) and the building of the new row (webapp.py:94-97) are outside the `try`. An exception there propagates to the caller, and the model has no such path.
- The CLI menus other than the PGP menu (main menu, text and file menus), console prompts, printing and the clipboard library. The clipboard is only a field of the PGP session. The menu that `main_loop` opens after each digest, which can re-enter the loop or exit the program, is not modelled. Neither is the final "Press Enter" prompt.
- `Digest.MainLoop`: when the input ends without an "exit", `getpass` would raise. The model instead stops with `exited = false`.
- `PgpMenu.Step`: exporting the public key is modelled only by whether the write succeeded. The PEM bytes written are not modelled.
- `Base64.Decode`, `Pgp.DecryptMessage`: the base64 decoder is strict, unlike Python's `b64decode` without `validate=True` (utils.py:151, zencrypt/zencrypt_cli.py:267, cipher/zencrypt.py:267). That decoder drops ASCII characters outside the alphabet, such as a trailing newline or a stray space. It also ignores whatever follows the first complete padded quantum. The model refuses such texts. On non-ASCII input the two agree, since `b64decode` then raises. So through the CLI menu's decrypt branch (`PgpMenu.Step`), the model keeps the old message where the program would decrypt and replace it. Encoded output and its round trip (`Base64.DecodeEncode`) are unaffected.
- `Text.Strip`: whitespace is the fixed set of characters that Python's `str.isspace` accepts. Other Unicode properties are not modelled.

=== FILE: base64.dfy ===
/**
 * Base64 as in section 4 of RFC 4648 (alphabet A-Z a-z 0-9 + /, '=' padding):
 * the layer `base64.b64encode` / `base64.b64decode` adds around the RSA-OAEP
 * ciphertext of the PGP helpers.
 *
 * The decoder here is the strict one: it accepts only texts of whole
 * four-character quanta over the alphabet, with padding only at the end.
 */
module Base64 {
  import opened Wrappers
  import opened Primitives

  predicate IsAlphabetChar(c: char) {
    'A' <= c <= 'Z' || 'a' <= c <= 'z' || '0' <= c <= '9' || c == '+' || c == '/'
  }

  /** The character for a 6-bit value (Table 1 of RFC 4648). */
  function Char(v: bv8): (c: char)
    requires v < 64
    ensures IsAlphabetChar(c)
  {
    AlphabetChar(v as int)
  }

  function AlphabetChar(n: int): (c: char)
    requires 0 <= n < 64
    ensures IsAlphabetChar(c)
  {
    if n < 26 then ('A' as int + n) as char
    else if n < 52 then ('a' as int + n - 26) as char
    else if n < 62 then ('0' as int + n - 52) as char
    else if n == 62 then '+'
    else '/'
  }

  /** The position of a character in the alphabet, or -1 for '=' and every other character. */
  function AlphabetIndex(c: char): (n: int)
    ensures -1 <= n < 64
    ensures n >= 0 <==> IsAlphabetChar(c)
  {
    if 'A' <= c <= 'Z' then c as int - 'A' as int
    else if 'a' <= c <= 'z' then c as int - 'a' as int + 26
    else if '0' <= c <= '9' then c as int - '0' as int + 52
    else if c == '+' then 62
    else if c == '/' then 63
    else -1
  }

  /** The 6-bit value of an alphabet character; '=' and every other character have none. */
  function Value(c: char): (r: Option<bv8>)
    ensures r.Some? <==> IsAlphabetChar(c)
  {
    var n := AlphabetIndex(c);
    if n >= 0 then Some(n as bv8) else None
  }

  lemma IndexOfChar(n: int)
    requires 0 <= n < 64
    ensures AlphabetIndex(AlphabetChar(n)) == n
  {
  }

  lemma ValueOfChar(v: bv8)
    requires v < 64
    ensures Value(Char(v)) == Some(v)
  {
    IndexOfChar(v as int);
    assert (v as int) as bv8 == v;
  }

  // The three bytes of a quantum split into four 6-bit values, and back.

  function S0(b0: bv8): bv8 { b0 >> 2 }
  function S1(b0: bv8, b1: bv8): bv8 { ((b0 & 3) << 4) | (b1 >> 4) }
  function S2(b1: bv8, b2: bv8): bv8 { ((b1 & 15) << 2) | (b2 >> 6) }
  function S3(b2: bv8): bv8 { b2 & 63 }

  function B0(v0: bv8, v1: bv8): bv8 { (v0 << 2) | (v1 >> 4) }
  function B1(v1: bv8, v2: bv8): bv8 { ((v1 & 15) << 4) | (v2 >> 2) }
  function B2(v2: bv8, v3: bv8): bv8 { ((v2 & 3) << 6) | v3 }

  lemma SplitJoin(b0: bv8, b1: bv8, b2: bv8)
    ensures S0(b0) < 64 && S1(b0, b1) < 64 && S2(b1, b2) < 64 && S3(b2) < 64
    ensures B0(S0(b0), S1(b0, b1)) == b0
    ensures B1(S1(b0, b1), S2(b1, b2)) == b1
    ensures B2(S2(b1, b2), S3(b2)) == b2
  {
  }

  /** Encoding of one full quantum of three bytes. */
  function Quantum(b0: bv8, b1: bv8, b2: bv8): (s: string)
    ensures |s| == 4
  {
    SplitJoin(b0, b1, b2);
    [Char(S0(b0)), Char(S1(b0, b1)), Char(S2(b1, b2)), Char(S3(b2))]
  }

  /** Final quantum of one byte: two characters and "==" (section 4, case 2). */
  function FinalOne(b0: bv8): (s: string)
    ensures |s| == 4
  {
    SplitJoin(b0, 0, 0);
    [Char(S0(b0)), Char(S1(b0, 0)), '=', '=']
  }

  /** Final quantum of two bytes: three characters and "=" (section 4, case 3). */
  function FinalTwo(b0: bv8, b1: bv8): (s: string)
    ensures |s| == 4
  {
    SplitJoin(b0, b1, 0);
    [Char(S0(b0)), Char(S1(b0, b1)), Char(S2(b1, 0)), '=']
  }

  function Encode(b: Bytes): (s: string)
    ensures |s| % 4 == 0
    ensures |s| == 0 <==> |b| == 0
    ensures forall i :: 0 <= i < |s| ==> IsAlphabetChar(s[i]) || s[i] == '='
  {
    if |b| == 0 then ""
    else if |b| == 1 then FinalOne(b[0])
    else if |b| == 2 then FinalTwo(b[0], b[1])
    else Quantum(b[0], b[1], b[2]) + Encode(b[3..])
  }

  /** Decodes one quantum without padding. */
  function DecodeQuantum(q: string): (r: Option<Bytes>)
    requires |q| == 4
    ensures r.Some? ==> |r.value| == 3
  {
    match (Value(q[0]), Value(q[1]), Value(q[2]), Value(q[3]))
    case (Some(v0), Some(v1), Some(v2), Some(v3)) => Some([B0(v0, v1), B1(v1, v2), B2(v2, v3)])
    case _ => None
  }

  /** Decodes the last quantum, which may carry one or two padding characters. */
  function DecodeFinal(q: string): (r: Option<Bytes>)
    requires |q| == 4
    ensures r.Some? ==> |r.value| <= 3
  {
    if q[2] == '=' && q[3] == '=' then
      match (Value(q[0]), Value(q[1]))
      case (Some(v0), Some(v1)) => Some([B0(v0, v1)])
      case _ => None
    else if q[3] == '=' then
      match (Value(q[0]), Value(q[1]), Value(q[2]))
      case (Some(v0), Some(v1), Some(v2)) => Some([B0(v0, v1), B1(v1, v2)])
      case _ => None
    else DecodeQuantum(q)
  }

  /**
   * The strict decoder: a text is accepted only when it is made of whole
   * four-character quanta, each of which decodes.
   */
  function Decode(s: string): (r: Option<Bytes>)
    ensures r.Some? ==> |s| % 4 == 0
    ensures r.Some? ==> 4 * |r.value| <= 3 * |s|
  {
    if |s| % 4 != 0 then None else DecodeQuanta(s)
  }

  /** Decodes a text of whole quanta; only the last one may carry padding. */
  function DecodeQuanta(s: string): (r: Option<Bytes>)
    requires |s| % 4 == 0
    ensures r.Some? ==> 4 * |r.value| <= 3 * |s|
    decreases |s|
  {
    if |s| == 0 then Some([])
    else if |s| == 4 then DecodeFinal(s)
    else
      var head, rest := DecodeQuantum(s[..4]), DecodeQuanta(s[4..]);
      if head.Some? && rest.Some? then Some(head.value + rest.value) else None
  }

  lemma QuantumDecodes(b0: bv8, b1: bv8, b2: bv8)
    ensures DecodeQuantum(Quantum(b0, b1, b2)) == Some([b0, b1, b2])
    ensures DecodeFinal(Quantum(b0, b1, b2)) == Some([b0, b1, b2])
  {
    SplitJoin(b0, b1, b2);
    ValueOfChar(S0(b0));
    ValueOfChar(S1(b0, b1));
    ValueOfChar(S2(b1, b2));
    ValueOfChar(S3(b2));
  }

  lemma FinalOneDecodes(b0: bv8)
    ensures DecodeFinal(FinalOne(b0)) == Some([b0])
  {
    SplitJoin(b0, 0, 0);
    ValueOfChar(S0(b0));
    ValueOfChar(S1(b0, 0));
  }

  lemma FinalTwoDecodes(b0: bv8, b1: bv8)
    ensures DecodeFinal(FinalTwo(b0, b1)) == Some([b0, b1])
  {
    SplitJoin(b0, b1, 0);
    ValueOfChar(S0(b0));
    ValueOfChar(S1(b0, b1));
    ValueOfChar(S2(b1, 0));
    assert FinalTwo(b0, b1)[2] != '=';
  }

  /** Decoding a text of more than one quantum decodes the first quantum and then the rest. */
  lemma DecodeSplits(q: string, rest: string, head: Bytes, tail: Bytes)
    requires |q| == 4 && |rest| > 0
    requires DecodeQuantum(q) == Some(head) && Decode(rest) == Some(tail)
    ensures Decode(q + rest) == Some(head + tail)
  {
    var s := q + rest;
    assert |rest| % 4 == 0 && |s| == |rest| + 4;
    assert |s| % 4 == 0;
    assert s[..4] == q && s[4..] == rest;
    assert Decode(rest) == DecodeQuanta(rest);
    assert DecodeQuanta(s) == Some(head + tail);
  }

  lemma DecodeEncodeOne(b: Bytes)
    requires |b| == 1
    ensures Decode(Encode(b)) == Some(b)
  {
    assert Encode(b) == FinalOne(b[0]);
    FinalOneDecodes(b[0]);
    assert [b[0]] == b;
  }

  lemma DecodeEncodeTwo(b: Bytes)
    requires |b| == 2
    ensures Decode(Encode(b)) == Some(b)
  {
    assert Encode(b) == FinalTwo(b[0], b[1]);
    FinalTwoDecodes(b[0], b[1]);
    assert [b[0], b[1]] == b;
  }

  lemma DecodeEncodeThree(b: Bytes)
    requires |b| == 3
    ensures Decode(Encode(b)) == Some(b)
  {
    assert Encode(b) == Quantum(b[0], b[1], b[2]) + Encode([]);
    assert Encode(b) == Quantum(b[0], b[1], b[2]);
    QuantumDecodes(b[0], b[1], b[2]);
    assert [b[0], b[1], b[2]] == b;
  }

  /** A text longer than three bytes round-trips once its tail after the first three bytes does. */
  lemma DecodeEncodeLong(b: Bytes)
    requires |b| > 3
    requires Decode(Encode(b[3..])) == Some(b[3..])
    ensures Decode(Encode(b)) == Some(b)
  {
    var q, rest := Quantum(b[0], b[1], b[2]), b[3..];
    assert Encode(b) == q + Encode(rest);
    QuantumDecodes(b[0], b[1], b[2]);
    DecodeSplits(q, Encode(rest), [b[0], b[1], b[2]], rest);
    HeadThree(b);
  }

  lemma HeadThree(b: Bytes)
    requires |b| >= 3
    ensures [b[0], b[1], b[2]] + b[3..] == b
  {
  }

  /** Decoding inverts encoding: the base64 layer loses nothing. */
  lemma {:induction false} DecodeEncode(b: Bytes)
    ensures Decode(Encode(b)) == Some(b)
  {
    if |b| == 1 {
      DecodeEncodeOne(b);
    } else if |b| == 2 {
      DecodeEncodeTwo(b);
    } else if |b| == 3 {
      DecodeEncodeThree(b);
    } else if |b| > 3 {
      DecodeEncode(b[3..]);
      DecodeEncodeLong(b);
    }
  }
}

=== FILE: digest.dfy ===
/**
 * The salted SHA-256 digest of the hash manager: `generate_hash`, the
 * comparison in `verify_hash`, and the CLI loop that hashes one entry after
 * another until the user types "exit".
 */
module Digest {
  import opened Primitives
  import Hex

  /**
   * `generate_hash(text, salt)`: the lowercase hex SHA-256 of the UTF-8
   * bytes of `text + salt`; the salt defaults to the empty string.
   */
  function GenerateHash(c: Crypto, text: string, salt: string := ""): (h: string)
    ensures |h| == 2 * |c.sha256(c.utf8Encode(text + salt))|
    ensures forall i :: 0 <= i < |h| ==> Hex.IsLowerHexDigit(h[i])
  {
    Hex.Encode(c.sha256(c.utf8Encode(text + salt)))
  }

  /** A digest is 64 lowercase hex characters. */
  lemma DigestShape(c: Crypto, text: string, salt: string)
    requires Sha256Laws(c)
    ensures |GenerateHash(c, text, salt)| == 64
  {
  }

  /** With the default salt the digest is that of the text alone. */
  lemma DefaultSaltIsTextAlone(c: Crypto, text: string)
    ensures GenerateHash(c, text) == Hex.Encode(c.sha256(c.utf8Encode(text)))
  {
    assert text + "" == text;
  }

  /** Only the concatenation counts: ("ab", "c") and ("a", "bc") hash alike. */
  lemma OnlyConcatenationMatters(c: Crypto, t1: string, s1: string, t2: string, s2: string)
    requires t1 + s1 == t2 + s2
    ensures GenerateHash(c, t1, s1) == GenerateHash(c, t2, s2)
  {
  }

  /** Two digests agree exactly when the underlying SHA-256 values agree. */
  lemma SameDigestIffSameHash(c: Crypto, t1: string, s1: string, t2: string, s2: string)
    ensures GenerateHash(c, t1, s1) == GenerateHash(c, t2, s2) <==>
            c.sha256(c.utf8Encode(t1 + s1)) == c.sha256(c.utf8Encode(t2 + s2))
  {
    if GenerateHash(c, t1, s1) == GenerateHash(c, t2, s2) {
      Hex.EncodeInjective(c.sha256(c.utf8Encode(t1 + s1)), c.sha256(c.utf8Encode(t2 + s2)));
    }
  }

  /**
   * `verify_hash`: recompute the digest of `original + salt` and compare it
   * with the entered hash, character for character.
   */
  function VerifyHash(c: Crypto, inputHash: string, original: string, salt: string): (ok: bool)
    ensures ok ==> forall i :: 0 <= i < |inputHash| ==> Hex.IsLowerHexDigit(inputHash[i])
    ensures ok ==> |inputHash| == 2 * |c.sha256(c.utf8Encode(original + salt))|
  {
    GenerateHash(c, original, salt) == inputHash
  }

  /** The digest that `generate_hash` printed always verifies. */
  lemma GeneratedHashVerifies(c: Crypto, text: string, salt: string)
    ensures VerifyHash(c, GenerateHash(c, text, salt), text, salt)
  {
  }

  /** At most one entered string verifies against a given text and salt. */
  lemma VerifiedHashIsUnique(c: Crypto, h1: string, h2: string, text: string, salt: string)
    requires VerifyHash(c, h1, text, salt) && VerifyHash(c, h2, text, salt)
    ensures h1 == h2
  {
  }

  /** The compare is case-sensitive: the upper-case form of a digest holding a letter fails. */
  lemma UppercaseDigestFails(c: Crypto, text: string, salt: string, i: nat)
    requires i < |GenerateHash(c, text, salt)| && 'a' <= GenerateHash(c, text, salt)[i] <= 'f'
    ensures !VerifyHash(c, Hex.ToUpper(GenerateHash(c, text, salt)), text, salt)
  {
    Hex.UpperDiffers(c.sha256(c.utf8Encode(text + salt)), i);
  }

  /** One round of the hash manager: the text typed, then (unless it is "exit") the salt. */
  datatype HashInput = HashInput(text: string, salt: string)

  /**
   * `main_loop`: read entries until the text "exit"; every other entry
   * increments `counter` and is hashed with its salt. The menu shown after
   * each digest is not part of this model. `exited` is false when the input
   * runs out before an "exit".
   */
  method MainLoop(c: Crypto, inputs: seq<HashInput>) returns (counter: nat, digests: seq<string>, exited: bool)
    ensures counter == |digests| <= |inputs|
    ensures forall i :: 0 <= i < counter ==> inputs[i].text != "exit"
    ensures forall i :: 0 <= i < counter ==> digests[i] == GenerateHash(c, inputs[i].text, inputs[i].salt)
    ensures exited <==> counter < |inputs|
    ensures exited ==> inputs[counter].text == "exit"
  {
    counter, digests, exited := 0, [], false;
    var i := 0;
    while i < |inputs|
      invariant 0 <= i <= |inputs|
      invariant counter == i == |digests|
      invariant forall j :: 0 <= j < i ==> inputs[j].text != "exit"
      invariant forall j :: 0 <= j < i ==> digests[j] == GenerateHash(c, inputs[j].text, inputs[j].salt)
      invariant !exited
    {
      var text := inputs[i].text;
      if text == "exit" {
        exited := true;
        break;
      }
      counter := counter + 1;
      var salt := inputs[i].salt;
      digests := digests + [GenerateHash(c, text, salt)];
      i := i + 1;
    }
  }
}

=== FILE: file_container.dfy ===
/**
 * The password-encrypted file container of `encrypt_file` / `decrypt_file`:
 * a 16-byte salt, a 16-byte IV and the AES-CFB ciphertext, concatenated, with
 * the key stretched from the password by PBKDF2-HMAC-SHA256.
 *
 * Reading and writing the files is left to the caller: file contents are
 * byte strings here, and the random salt and IV are parameters.
 */
module FileContainer {
  import opened Wrappers
  import opened Primitives

  /** Offsets of the header fields in the container. */
  const SaltSize: nat := 16
  const HeaderSize: nat := 32

  /** The key-derivation settings of `generate_key`. */
  const KeyDerivation: KdfParams := KdfParams(Sha256, 32, 100000)

  /** `generate_key(password, salt)`: a 32-byte key from PBKDF2-HMAC-SHA256 with 100000 iterations. */
  function GenerateKey(c: Crypto, password: Bytes, salt: Bytes): (key: Bytes)
    ensures Pbkdf2Laws(c) ==> |key| == 32
  {
    c.pbkdf2(KeyDerivation, password, salt)
  }

  /** What `encrypt_file` writes: salt, then IV, then ciphertext. */
  function Frame(salt: Block16, iv: Block16, ciphertext: Bytes): (data: Bytes)
    ensures |data| == HeaderSize + |ciphertext|
    ensures data[..SaltSize] == salt && data[SaltSize..HeaderSize] == iv && data[HeaderSize..] == ciphertext
  {
    salt + iv + ciphertext
  }

  /** The three fields `decrypt_file` reads back. */
  datatype Fields = Fields(salt: Bytes, iv: Bytes, ciphertext: Bytes)

  /** Python's clamped slice bound: `data[:k]` never fails on a short input. */
  function Clamp(k: nat, n: nat): (r: nat)
    ensures r <= n && r <= k && (r == k || r == n)
  {
    if k <= n then k else n
  }

  /**
   * `data[:16]`, `data[16:32]` and `data[32:]`. Total: the three slices
   * always put the input back together; only a short input yields a short
   * salt or IV.
   */
  function Parse(data: Bytes): (f: Fields)
    ensures f.salt + f.iv + f.ciphertext == data
    ensures |data| >= HeaderSize <==> |f.salt| == SaltSize && |f.iv| == AesBlockSize
    ensures |data| < HeaderSize ==> |f.iv| < AesBlockSize && f.ciphertext == []
    ensures |f.salt| == if |data| < SaltSize then |data| else SaltSize
  {
    var n := |data|;
    Fields(data[..Clamp(SaltSize, n)], data[Clamp(SaltSize, n)..Clamp(HeaderSize, n)], data[Clamp(HeaderSize, n)..])
  }

  /** Parsing recovers exactly what framing wrote. */
  lemma ParseFrame(salt: Block16, iv: Block16, ciphertext: Bytes)
    ensures Parse(Frame(salt, iv, ciphertext)) == Fields(salt, iv, ciphertext)
  {
  }

  /** `encrypt_file` on the bytes of the input file, with the salt and IV it drew. */
  function EncryptFile(c: Crypto, password: Bytes, salt: Block16, iv: Block16, plaintext: Bytes): (data: Bytes)
    ensures |data| >= HeaderSize
    ensures data[..SaltSize] == salt && data[SaltSize..HeaderSize] == iv
    ensures CfbLaws(c) ==> |data| == HeaderSize + |plaintext|
  {
    Frame(salt, iv, c.aesCfbEncrypt(GenerateKey(c, password, salt), iv, plaintext))
  }

  datatype FileError = InvalidIvSize(size: nat)

  /**
   * `decrypt_file` on the bytes of the input file. The key is re-derived
   * from the stored salt. AES-CFB refuses an IV that is not one block long,
   * so an input shorter than the header fails there.
   */
  function DecryptFile(c: Crypto, password: Bytes, data: Bytes): (r: Result<Bytes, FileError>)
    ensures r.Err? <==> |data| < HeaderSize
    ensures r.Ok? ==> r.value == c.aesCfbDecrypt(GenerateKey(c, password, data[..SaltSize]), data[SaltSize..HeaderSize], data[HeaderSize..])
  {
    var f := Parse(data);
    if |f.iv| != AesBlockSize then Err(InvalidIvSize(|f.iv|))
    else Ok(c.aesCfbDecrypt(GenerateKey(c, password, f.salt), f.iv, f.ciphertext))
  }

  /** With the same password, decrypting the container gives back the original bytes. */
  lemma DecryptEncrypt(c: Crypto, password: Bytes, salt: Block16, iv: Block16, plaintext: Bytes)
    requires CfbLaws(c)
    ensures DecryptFile(c, password, EncryptFile(c, password, salt, iv, plaintext)) == Ok(plaintext)
  {
    ParseFrame(salt, iv, c.aesCfbEncrypt(GenerateKey(c, password, salt), iv, plaintext));
  }
}

=== FILE: hex.dfy ===
/**
 * Lowercase hexadecimal text of a byte string, as `hashlib`'s `hexdigest()`
 * writes it, with the decoder that shows the encoding loses nothing.
 */
module Hex {
  import opened Wrappers
  import opened Primitives

  predicate IsLowerHexDigit(c: char) {
    '0' <= c <= '9' || 'a' <= c <= 'f'
  }

  function Digit(v: bv8): (c: char)
    requires v < 16
    ensures IsLowerHexDigit(c)
  {
    DigitChar(v as int)
  }

  function DigitChar(n: int): (c: char)
    requires 0 <= n < 16
    ensures IsLowerHexDigit(c)
  {
    if n < 10 then ('0' as int + n) as char else ('a' as int + n - 10) as char
  }

  /** The position of a lowercase hex digit, or -1 for any other character. */
  function DigitIndex(c: char): (n: int)
    ensures -1 <= n < 16
    ensures n >= 0 <==> IsLowerHexDigit(c)
  {
    if '0' <= c <= '9' then c as int - '0' as int
    else if 'a' <= c <= 'f' then c as int - 'a' as int + 10
    else -1
  }

  /** The value of a lowercase hex digit; any other character has none. */
  function DigitValue(c: char): (r: Option<bv8>)
    ensures r.Some? <==> IsLowerHexDigit(c)
    ensures r.Some? ==> r.value < 16
  {
    var n := DigitIndex(c);
    if n >= 0 then Some(n as bv8) else None
  }

  /** Two lowercase digits per byte, high nibble first. */
  function Encode(b: Bytes): (s: string)
    ensures |s| == 2 * |b|
    ensures forall i :: 0 <= i < |s| ==> IsLowerHexDigit(s[i])
  {
    if |b| == 0 then "" else [Digit(b[0] >> 4), Digit(b[0] & 15)] + Encode(b[1..])
  }

  function Decode(s: string): (r: Option<Bytes>)
    ensures r.Some? ==> 2 * |r.value| == |s|
  {
    if |s| == 0 then Some([])
    else if |s| == 1 then None
    else
      match (DigitValue(s[0]), DigitValue(s[1]), Decode(s[2..]))
      case (Some(hi), Some(lo), Some(rest)) => Some([(hi << 4) | lo] + rest)
      case _ => None
  }

  lemma DigitValueOfDigit(v: bv8)
    requires v < 16
    ensures DigitValue(Digit(v)) == Some(v)
  {
    assert DigitIndex(DigitChar(v as int)) == v as int;
    assert (v as int) as bv8 == v;
  }

  lemma NibblesRebuild(x: bv8)
    ensures (x >> 4) < 16 && (x & 15) < 16 && ((x >> 4) << 4) | (x & 15) == x
  {
  }

  /** The two digits of one byte decode to that byte, in front of whatever the rest decodes to. */
  lemma DecodeByte(x: bv8, t: string, rest: Bytes)
    requires Decode(t) == Some(rest)
    ensures Decode([Digit(x >> 4), Digit(x & 15)] + t) == Some([x] + rest)
  {
    var s := [Digit(x >> 4), Digit(x & 15)] + t;
    NibblesRebuild(x);
    DigitValueOfDigit(x >> 4);
    DigitValueOfDigit(x & 15);
    assert s[2..] == t;
  }

  lemma {:induction false} DecodeEncode(b: Bytes)
    ensures Decode(Encode(b)) == Some(b)
  {
    if |b| > 0 {
      DecodeEncode(b[1..]);
      DecodeByte(b[0], Encode(b[1..]), b[1..]);
      HeadRest(b);
    }
  }

  lemma HeadRest(b: Bytes)
    requires |b| > 0
    ensures [b[0]] + b[1..] == b
  {
  }

  /** Different byte strings have different hex texts. */
  lemma EncodeInjective(a: Bytes, b: Bytes)
    requires Encode(a) == Encode(b)
    ensures a == b
  {
    DecodeEncode(a);
    DecodeEncode(b);
  }

  /** ASCII upper-casing, as `str.upper()` acts on hex text. */
  function ToUpper(s: string): (r: string)
    ensures |r| == |s|
    ensures forall i :: 0 <= i < |s| ==>
      r[i] == if 'a' <= s[i] <= 'z' then (s[i] as int - 32) as char else s[i]
  {
    if |s| == 0 then "" else
      [if 'a' <= s[0] <= 'z' then (s[0] as int - 32) as char else s[0]] + ToUpper(s[1..])
  }

  /** Upper-casing changes the hex text of a byte string as soon as it holds a letter digit. */
  lemma UpperDiffers(b: Bytes, i: nat)
    requires i < |Encode(b)| && 'a' <= Encode(b)[i] <= 'f'
    ensures ToUpper(Encode(b)) != Encode(b)
  {
    assert ToUpper(Encode(b))[i] != Encode(b)[i];
  }
}

=== FILE: key_store.dfy ===
/**
 * The web application's key management over the `Key` and `PGPKey` tables:
 * `initialize_key`, `rotate_key`, the `/import-key` route and the
 * `/pgp/generate` route. Each works inside one database transaction: the
 * changes it makes are kept when `commit` succeeds and undone otherwise.
 * Whether the statements inside the `try` raise is outside the model and
 * comes in as a parameter, as do freshly generated keys. For
 * `initialize_key` these are only the add and the commit.
 */
module KeyStore {
  import opened Wrappers
  import opened Primitives
  import opened KeyTable
  import Text

  /** The PEM texts of a generated RSA key pair, as a `PGPKey` row stores them. */
  datatype PgpPair = PgpPair(publicKey: string, privateKey: string)

  /** The `key_file` part of the import request. */
  datatype Upload = Upload(filename: string, content: Bytes)

  /** NoFile: redirected without a file. Imported: committed. Failed: rolled back, error 500. */
  datatype ImportOutcome = NoFile | Imported | Failed

  class Database {
    var keys: seq<Row<string>>
    var pgpKeys: seq<Row<PgpPair>>

    /** At most one active key and one active PGP key pair per user. */
    ghost predicate Valid()
      reads this
    {
      SingleActive(keys) && SingleActive(pgpKeys)
    }

    constructor ()
      ensures Valid() && keys == [] && pgpKeys == []
    {
      keys, pgpKeys := [], [];
    }

    /** The value of the user's first active key, as `export_key` and `initialize_key` look it up. */
    function ActiveKey(u: UserId): (r: Option<string>)
      reads this
      ensures r.Some? <==> ActiveCount(keys, u) > 0
    {
      CountZeroIffNoneActive(keys, u);
      match FirstActive(keys, u)
      case None => None
      case Some(i) => Some(keys[i].value)
    }

    /**
     * `initialize_key(user_id)`: return the active key if there is one;
     * otherwise store `generated` as a new row and return it, or, when the
     * commit fails, roll back and return the unstored `fallback` key.
     */
    method InitializeKey(u: UserId, generated: string, commitSucceeds: bool, fallback: string) returns (key: string)
      requires Valid()
      modifies this
      ensures Valid() && pgpKeys == old(pgpKeys)
      ensures old(ActiveKey(u)).Some? ==> key == old(ActiveKey(u)).value && keys == old(keys)
      ensures old(ActiveKey(u)).None? && commitSucceeds ==> key == generated && keys == old(keys) + [NewRow(u, generated)]
      ensures old(ActiveKey(u)).None? && !commitSucceeds ==> key == fallback && keys == old(keys)
      ensures keys == if commitSucceeds then Initialized(old(keys), u, generated) else old(keys)
      ensures commitSucceeds ==> ActiveKey(u) == Some(key)
    {
      var existing := FirstActive(keys, u);
      if existing.Some? {
        key := keys[existing.value].value;
        return;
      }
      var snapshot := keys;
      keys := keys + [NewRow(u, generated)];
      if commitSucceeds {
        key := generated;
        InitializePreservesSingleActive(snapshot, u, generated);
        OnlyActiveRowIsFound(keys, u, |snapshot|);
      } else {
        keys := snapshot;
        key := fallback;
      }
    }

    /**
     * `rotate_key(user_id)`: deactivate the user's first active key and
     * store `generated` as the new one; on failure roll back and return None.
     */
    method RotateKey(u: UserId, generated: string, commitSucceeds: bool) returns (key: Option<string>)
      requires Valid()
      modifies this
      ensures Valid() && pgpKeys == old(pgpKeys)
      ensures commitSucceeds ==> key == Some(generated) && keys == Rotated(old(keys), u, generated)
      ensures !commitSucceeds ==> key == None && keys == old(keys)
      ensures commitSucceeds ==> ActiveKey(u) == Some(generated) && ActiveCount(keys, u) == 1
    {
      var snapshot := keys;
      var previous := FirstActive(keys, u);
      if previous.Some? {
        keys := keys[previous.value := keys[previous.value].(active := false)];
      }
      keys := keys + [NewRow(u, generated)];
      if commitSucceeds {
        key := Some(generated);
        assert keys == Rotated(snapshot, u, generated);
        RotatePreservesSingleActive(snapshot, u, generated);
      } else {
        keys := snapshot;
        key := None;
      }
    }

    /**
     * The `/import-key` route: without a file (or with an empty file name)
     * nothing happens; otherwise the file is decoded as UTF-8 and stripped,
     * every active key of the user is deactivated and the text is stored as
     * the new active key. A decoding or commit failure rolls back.
     */
    method ImportKey(c: Crypto, u: UserId, upload: Option<Upload>, commitSucceeds: bool) returns (outcome: ImportOutcome)
      requires Valid()
      modifies this
      ensures Valid() && pgpKeys == old(pgpKeys)
      ensures outcome == NoFile <==> upload.None? || upload.value.filename == ""
      ensures outcome == Imported <==>
        upload.Some? && upload.value.filename != "" && c.utf8Decode(upload.value.content).Some? && commitSucceeds
      ensures outcome == Imported ==>
        var text := Text.Strip(c.utf8Decode(upload.value.content).value);
        keys == Replaced(old(keys), u, text) && ActiveKey(u) == Some(text) && ActiveCount(keys, u) == 1
      ensures outcome != Imported ==> keys == old(keys)
    {
      if upload.None? || upload.value.filename == "" {
        return NoFile;
      }
      var snapshot := keys;
      var decoded := c.utf8Decode(upload.value.content);
      if decoded.None? {
        return Failed;
      }
      var content := Text.Strip(decoded.value);
      keys := DeactivateAll(keys, u);
      keys := keys + [NewRow(u, content)];
      if commitSucceeds {
        outcome := Imported;
        ReplacePreservesSingleActive(snapshot, u, content);
        ReplacedCount(snapshot, u, content, u);
      } else {
        keys := snapshot;
        outcome := Failed;
      }
    }

    /**
     * The `/pgp/generate` route: deactivate every active PGP key pair of the
     * user and store the freshly generated `pair`. The route does not roll
     * back on failure; the uncommitted changes are discarded with the
     * request's session, so the stored table is unchanged.
     */
    method GeneratePgp(u: UserId, pair: PgpPair, commitSucceeds: bool) returns (ok: bool)
      requires Valid()
      modifies this
      ensures Valid() && keys == old(keys)
      ensures ok == commitSucceeds
      ensures ok ==> pgpKeys == Replaced(old(pgpKeys), u, pair) && ActiveCount(pgpKeys, u) == 1
      ensures ok ==> FirstActive(pgpKeys, u) == Some(|old(pgpKeys)|)
      ensures !ok ==> pgpKeys == old(pgpKeys)
    {
      var snapshot := pgpKeys;
      pgpKeys := DeactivateAll(pgpKeys, u);
      pgpKeys := pgpKeys + [NewRow(u, pair)];
      ok := commitSucceeds;
      if ok {
        ReplacePreservesSingleActive(snapshot, u, pair);
        ReplacedCount(snapshot, u, pair, u);
      } else {
        pgpKeys := snapshot;
      }
    }
  }
}

=== FILE: key_table.dfy ===
/**
 * The per-user key tables of the web application (`Key` and `PGPKey`):
 * rows of (user, key material, active flag), and the pure effect on them of
 * each key operation. The class in KeyStore applies these effects inside a
 * transaction.
 */
module KeyTable {
  import opened Wrappers

  type UserId = nat

  datatype Row<V> = Row(userId: UserId, value: V, active: bool)

  /**
   * A row as the operations add it. The ORM model is not part of this
   * model; a new row is assumed to default to `active = True`.
   */
  function NewRow<V>(u: UserId, v: V): Row<V> {
    Row(u, v, true)
  }

  predicate ActiveFor<V>(r: Row<V>, u: UserId) {
    r.active && r.userId == u
  }

  /** 1 for an active row of user `u`, 0 for any other row. */
  function Indicator<V>(r: Row<V>, u: UserId): nat {
    if ActiveFor(r, u) then 1 else 0
  }

  /** The number of active rows of user `u`. */
  function ActiveCount<V>(rows: seq<Row<V>>, u: UserId): nat
  {
    if |rows| == 0 then 0
    else ActiveCount(rows[..|rows| - 1], u) + Indicator(rows[|rows| - 1], u)
  }

  /** The table invariant: at most one active key per user. */
  ghost predicate SingleActive<V>(rows: seq<Row<V>>) {
    forall u :: ActiveCount(rows, u) <= 1
  }

  /** The rows of user `v`, in table order: what that user's queries can see. */
  function RowsOf<V>(rows: seq<Row<V>>, v: UserId): seq<Row<V>>
  {
    if |rows| == 0 then []
    else RowsOf(rows[..|rows| - 1], v) + (if rows[|rows| - 1].userId == v then [rows[|rows| - 1]] else [])
  }

  // ---------------------------------------------------------------------------
  // Queries

  /**
   * `Key.query.filter_by(user_id=u, active=True).first()`: the position of
   * the user's first active row, if there is one.
   */
  function FirstActive<V>(rows: seq<Row<V>>, u: UserId): (r: Option<nat>)
    ensures r.Some? ==> r.value < |rows| && ActiveFor(rows[r.value], u)
    ensures r.Some? ==> forall j :: 0 <= j < r.value ==> !ActiveFor(rows[j], u)
    ensures r.None? ==> forall j :: 0 <= j < |rows| ==> !ActiveFor(rows[j], u)
  {
    if |rows| == 0 then None
    else if ActiveFor(rows[0], u) then Some(0)
    else match FirstActive(rows[1..], u)
      case None => None
      case Some(i) => Some(i + 1)
  }

  /** Appending a row changes the lookup only when the user had no active row before. */
  lemma FirstActiveAppend<V>(rows: seq<Row<V>>, x: Row<V>, u: UserId)
    ensures FirstActive(rows + [x], u) ==
      if FirstActive(rows, u).Some? then FirstActive(rows, u)
      else if ActiveFor(x, u) then Some(|rows|) else None
  {
    var a := rows + [x];
    match FirstActive(rows, u)
    case Some(i) =>
      assert ActiveFor(a[i], u);
      var f := FirstActive(a, u);
      assert f.value <= i;
    case None =>
      assert forall j :: 0 <= j < |rows| ==> a[j] == rows[j];
      if ActiveFor(x, u) {
        assert ActiveFor(a[|rows|], u);
      }
  }

  // ---------------------------------------------------------------------------
  // Effects of the operations

  /** `.filter_by(user_id=u, active=True).update({"active": False})`. */
  function DeactivateAll<V>(rows: seq<Row<V>>, u: UserId): (r: seq<Row<V>>)
    ensures |r| == |rows|
    ensures forall j :: 0 <= j < |rows| ==> r[j].userId == rows[j].userId && r[j].value == rows[j].value
    ensures forall j :: 0 <= j < |rows| && rows[j].userId != u ==> r[j] == rows[j]
    ensures forall j :: 0 <= j < |rows| ==> !ActiveFor(r[j], u)
  {
    if |rows| == 0 then []
    else [if rows[0].userId == u then rows[0].(active := false) else rows[0]] + DeactivateAll(rows[1..], u)
  }

  /**
   * `initialize_key` once committed: keep an existing active key, else add
   * one. Afterwards the user always has an active key; it is the one found
   * before when there was one, and otherwise the new row.
   */
  function Initialized<V>(rows: seq<Row<V>>, u: UserId, v: V): (r: seq<Row<V>>)
    ensures |rows| <= |r| <= |rows| + 1 && r[..|rows|] == rows
    ensures |r| == |rows| <==> FirstActive(rows, u).Some?
    ensures FirstActive(r, u).Some?
    ensures FirstActive(rows, u).Some? ==> FirstActive(r, u) == FirstActive(rows, u)
    ensures FirstActive(rows, u).None? ==> r[FirstActive(r, u).value] == NewRow(u, v)
  {
    FirstActiveAppend(rows, NewRow(u, v), u);
    if FirstActive(rows, u).Some? then rows else rows + [NewRow(u, v)]
  }

  /** `rotate_key` once committed: deactivate the first active key, add the new one. */
  function Rotated<V>(rows: seq<Row<V>>, u: UserId, v: V): (r: seq<Row<V>>)
    ensures |r| == |rows| + 1 && r[|rows|] == NewRow(u, v)
    ensures forall j :: 0 <= j < |rows| ==> r[j].userId == rows[j].userId && r[j].value == rows[j].value
    ensures forall j :: 0 <= j < |rows| && rows[j].userId != u ==> r[j] == rows[j]
    ensures forall j :: 0 <= j < |rows| && !ActiveFor(rows[j], u) ==> r[j] == rows[j]
    ensures FirstActive(rows, u).Some? ==> !r[FirstActive(rows, u).value].active
    ensures forall j :: 0 <= j < |rows| && FirstActive(rows, u) != Some(j) ==> r[j] == rows[j]
  {
    var kept := match FirstActive(rows, u)
      case None => rows
      case Some(i) => rows[i := rows[i].(active := false)];
    kept + [NewRow(u, v)]
  }

  /** `import_key` and `generate_pgp` once committed: deactivate all the user's keys, add the new one. */
  function Replaced<V>(rows: seq<Row<V>>, u: UserId, v: V): (r: seq<Row<V>>)
    ensures |r| == |rows| + 1 && r[|rows|] == NewRow(u, v)
    ensures forall j :: 0 <= j < |rows| ==> r[j].userId == rows[j].userId && r[j].value == rows[j].value
    ensures forall j :: 0 <= j < |rows| && rows[j].userId != u ==> r[j] == rows[j]
    ensures forall j :: 0 <= j < |rows| ==> !ActiveFor(r[j], u)
  {
    DeactivateAll(rows, u) + [NewRow(u, v)]
  }

  // ---------------------------------------------------------------------------
  // Counting active rows

  lemma CountAppend<V>(rows: seq<Row<V>>, x: Row<V>, u: UserId)
    ensures ActiveCount(rows + [x], u) == ActiveCount(rows, u) + Indicator(x, u)
  {
    assert (rows + [x])[..|rows|] == rows;
  }

  lemma {:induction false} CountZeroIffNoneActive<V>(rows: seq<Row<V>>, u: UserId)
    ensures ActiveCount(rows, u) == 0 <==> forall j :: 0 <= j < |rows| ==> !ActiveFor(rows[j], u)
  {
    if |rows| > 0 {
      CountZeroIffNoneActive(rows[..|rows| - 1], u);
    }
  }

  /** Two tables whose rows agree on "active for u" position by position have the same count for u. */
  lemma {:induction false} CountSame<V>(a: seq<Row<V>>, b: seq<Row<V>>, u: UserId)
    requires |a| == |b|
    requires forall j :: 0 <= j < |a| ==> ActiveFor(a[j], u) == ActiveFor(b[j], u)
    ensures ActiveCount(a, u) == ActiveCount(b, u)
  {
    if |a| > 0 {
      CountSame(a[..|a| - 1], b[..|b| - 1], u);
    }
  }

  /** Replacing one row changes the count by the difference of the two rows' indicators. */
  lemma {:induction false} CountUpdate<V>(rows: seq<Row<V>>, i: nat, x: Row<V>, u: UserId)
    requires i < |rows|
    ensures ActiveCount(rows[i := x], u) + Indicator(rows[i], u) == ActiveCount(rows, u) + Indicator(x, u)
  {
    var n := |rows|;
    if i == n - 1 {
      assert rows[i := x][..n - 1] == rows[..n - 1];
    } else {
      assert rows[i := x][..n - 1] == rows[..n - 1][i := x];
      CountUpdate(rows[..n - 1], i, x, u);
    }
  }

  /** Two distinct active rows of a user make a count of at least two. */
  lemma {:induction false} TwoActiveRows<V>(rows: seq<Row<V>>, u: UserId, i: nat, j: nat)
    requires i < j < |rows| && ActiveFor(rows[i], u) && ActiveFor(rows[j], u)
    ensures ActiveCount(rows, u) >= 2
  {
    var n := |rows|;
    if j == n - 1 {
      CountZeroIffNoneActive(rows[..n - 1], u);
      assert rows[..n - 1][i] == rows[i];
    } else {
      TwoActiveRows(rows[..n - 1], u, i, j);
    }
  }

  /** When a user has exactly one active row, the lookup finds that row. */
  lemma OnlyActiveRowIsFound<V>(rows: seq<Row<V>>, u: UserId, k: nat)
    requires k < |rows| && ActiveFor(rows[k], u) && ActiveCount(rows, u) <= 1
    ensures FirstActive(rows, u) == Some(k)
  {
    var f := FirstActive(rows, u);
    if f.value < k {
      TwoActiveRows(rows, u, f.value, k);
    }
  }

  // ---------------------------------------------------------------------------
  // What the operations do to the counts

  /** Initialising leaves other users' counts alone and gives `u` an active key if it had none. */
  lemma InitializedCount<V>(rows: seq<Row<V>>, u: UserId, v: V, w: UserId)
    ensures ActiveCount(Initialized(rows, u, v), w) ==
      if w == u && ActiveCount(rows, u) == 0 then 1 else ActiveCount(rows, w)
  {
    CountZeroIffNoneActive(rows, u);
    if FirstActive(rows, u).None? {
      CountAppend(rows, NewRow(u, v), w);
    }
  }

  /**
   * Rotating gives `u` one active key more and one less, except that a user
   * with no active key gains one; other users are unaffected. So rotating
   * keeps "at most one active key", but does not repair a user who has two.
   */
  lemma RotatedCount<V>(rows: seq<Row<V>>, u: UserId, v: V, w: UserId)
    ensures ActiveCount(Rotated(rows, u, v), w) ==
      if w == u && ActiveCount(rows, u) == 0 then 1 else ActiveCount(rows, w)
  {
    var r := Rotated(rows, u, v);
    var n := |rows|;
    assert r == r[..n] + [NewRow(u, v)];
    CountAppend(r[..n], NewRow(u, v), w);
    CountZeroIffNoneActive(rows, u);
    match FirstActive(rows, u)
    case None =>
      CountSame(r[..n], rows, w);
    case Some(i) =>
      assert r[..n] == rows[i := rows[i].(active := false)];
      CountUpdate(rows, i, rows[i].(active := false), w);
  }

  /** Replacing leaves `u` with exactly one active key, the new one, and other users unaffected. */
  lemma ReplacedCount<V>(rows: seq<Row<V>>, u: UserId, v: V, w: UserId)
    ensures ActiveCount(Replaced(rows, u, v), w) == if w == u then 1 else ActiveCount(rows, w)
    ensures FirstActive(Replaced(rows, u, v), u) == Some(|rows|)
  {
    var d := DeactivateAll(rows, u);
    CountAppend(d, NewRow(u, v), w);
    if w == u {
      CountZeroIffNoneActive(d, u);
    } else {
      CountSame(d, rows, w);
    }
    CountAppend(d, NewRow(u, v), u);
    CountZeroIffNoneActive(d, u);
    OnlyActiveRowIsFound(Replaced(rows, u, v), u, |rows|);
  }

  lemma InitializePreservesSingleActive<V>(rows: seq<Row<V>>, u: UserId, v: V)
    requires SingleActive(rows)
    ensures SingleActive(Initialized(rows, u, v))
  {
    forall w ensures ActiveCount(Initialized(rows, u, v), w) <= 1 {
      InitializedCount(rows, u, v, w);
    }
  }

  /** After a rotation in a table with at most one active key per user, the new key is the user's active key. */
  lemma RotatePreservesSingleActive<V>(rows: seq<Row<V>>, u: UserId, v: V)
    requires SingleActive(rows)
    ensures SingleActive(Rotated(rows, u, v))
    ensures ActiveCount(Rotated(rows, u, v), u) == 1
    ensures FirstActive(Rotated(rows, u, v), u) == Some(|rows|)
  {
    forall w ensures ActiveCount(Rotated(rows, u, v), w) <= 1 {
      RotatedCount(rows, u, v, w);
    }
    RotatedCount(rows, u, v, u);
    assert ActiveCount(rows, u) <= 1;
    OnlyActiveRowIsFound(Rotated(rows, u, v), u, |rows|);
  }

  /** Replacing establishes the invariant for `u` whatever the table held before. */
  lemma ReplacePreservesSingleActive<V>(rows: seq<Row<V>>, u: UserId, v: V)
    requires forall w :: w != u ==> ActiveCount(rows, w) <= 1
    ensures SingleActive(Replaced(rows, u, v))
  {
    forall w ensures ActiveCount(Replaced(rows, u, v), w) <= 1 {
      ReplacedCount(rows, u, v, w);
    }
  }

  // ---------------------------------------------------------------------------
  // Other users' rows

  lemma RowsOfAppend<V>(rows: seq<Row<V>>, x: Row<V>, v: UserId)
    ensures RowsOf(rows + [x], v) == RowsOf(rows, v) + (if x.userId == v then [x] else [])
  {
    assert (rows + [x])[..|rows|] == rows;
  }

  /** Rows of `v` are all that `v` sees: a table that differs only in other users' rows looks the same to `v`. */
  lemma {:induction false} RowsOfSame<V>(a: seq<Row<V>>, b: seq<Row<V>>, v: UserId)
    requires |a| == |b|
    requires forall j :: 0 <= j < |a| ==> (a[j].userId == v || b[j].userId == v) ==> a[j] == b[j]
    ensures RowsOf(a, v) == RowsOf(b, v)
  {
    if |a| > 0 {
      RowsOfSame(a[..|a| - 1], b[..|b| - 1], v);
    }
  }

  /**
   * Every key operation on user `u` leaves the rows of every other user
   * exactly as they were: it changes only `u`'s rows and appends rows of `u`.
   */
  lemma OtherUsersUnchanged<V>(rows: seq<Row<V>>, u: UserId, v: V, w: UserId)
    requires w != u
    ensures RowsOf(Initialized(rows, u, v), w) == RowsOf(rows, w)
    ensures RowsOf(Rotated(rows, u, v), w) == RowsOf(rows, w)
    ensures RowsOf(Replaced(rows, u, v), w) == RowsOf(rows, w)
  {
    var n := |rows|;
    RowsOfAppend(rows, NewRow(u, v), w);
    var r := Rotated(rows, u, v);
    assert r == r[..n] + [NewRow(u, v)];
    RowsOfAppend(r[..n], NewRow(u, v), w);
    RowsOfSame(r[..n], rows, w);
    var d := DeactivateAll(rows, u);
    RowsOfAppend(d, NewRow(u, v), w);
    RowsOfSame(d, rows, w);
  }
}

=== FILE: pgp.dfy ===
/**
 * The "PGP" helpers: RSA-OAEP (section 7.1 of RFC 8017) under PEM keys, with
 * the ciphertext carried as base64 text.
 */
module Pgp {
  import opened Wrappers
  import opened Primitives
  import Base64

  /**
   * `pgp_encrypt_message`: OAEP-encrypt the UTF-8 bytes of the message under
   * the public key and base64-encode the result. None stands for the
   * exception the library raises (unreadable key, message too long).
   */
  function EncryptMessage(c: Crypto, message: string, publicKey: string): (r: Option<string>)
    ensures r.Some? <==> c.rsaOaepEncrypt(publicKey, c.utf8Encode(message)).Some?
    ensures r.Some? ==> Base64.Decode(r.value) == c.rsaOaepEncrypt(publicKey, c.utf8Encode(message))
  {
    match c.rsaOaepEncrypt(publicKey, c.utf8Encode(message))
    case None => None
    case Some(ct) =>
      Base64.DecodeEncode(ct);
      Some(Base64.Encode(ct))
  }

  /**
   * `pgp_decrypt_message`: base64-decode, OAEP-decrypt under the private
   * key, then decode the bytes as UTF-8. None when any step raises.
   */
  function DecryptMessage(c: Crypto, encrypted: string, privateKey: string): (r: Option<string>)
    ensures r.Some? ==> Base64.Decode(encrypted).Some?
    ensures r.Some? ==> c.rsaOaepDecrypt(privateKey, Base64.Decode(encrypted).value).Some?
    ensures Base64.Decode(encrypted).Some? && c.rsaOaepDecrypt(privateKey, Base64.Decode(encrypted).value).Some? ==>
      r == c.utf8Decode(c.rsaOaepDecrypt(privateKey, Base64.Decode(encrypted).value).value)
  {
    match Base64.Decode(encrypted)
    case None => None
    case Some(ct) =>
      match c.rsaOaepDecrypt(privateKey, ct)
      case None => None
      case Some(plain) => c.utf8Decode(plain)
  }

  /** A message encrypted to a public key decrypts under the matching private key. */
  lemma DecryptEncrypt(c: Crypto, message: string, publicKey: string, privateKey: string)
    requires OaepLaws(c) && Utf8Laws(c)
    requires c.keyPair(publicKey, privateKey)
    requires EncryptMessage(c, message, publicKey).Some?
    ensures DecryptMessage(c, EncryptMessage(c, message, publicKey).value, privateKey) == Some(message)
  {
    var plain := c.utf8Encode(message);
    var ct := c.rsaOaepEncrypt(publicKey, plain).value;
    var text := EncryptMessage(c, message, publicKey).value;
    assert Base64.Decode(text) == Some(ct);
    assert c.rsaOaepDecrypt(privateKey, ct) == Some(plain);
    assert c.utf8Decode(plain) == Some(message);
  }

  /**
   * Encryption fails when the UTF-8 message is longer than the key's OAEP
   * limit: more than 190 bytes under a generated 2048-bit key, more under an
   * imported larger key.
   */
  lemma LongMessageFails(c: Crypto, message: string, publicKey: string)
    requires OaepLimitLaws(c)
    requires |c.utf8Encode(message)| > OaepMaxMessageFor(c.rsaModulusBytes(publicKey))
    ensures EncryptMessage(c, message, publicKey) == None
  {
  }

  /** Under a 2048-bit key the limit is 190 bytes. */
  lemma LongMessageFails2048(c: Crypto, message: string, publicKey: string)
    requires OaepLimitLaws(c)
    requires c.rsaModulusBytes(publicKey) == RsaModulusSize
    requires |c.utf8Encode(message)| > OaepMaxMessage
    ensures EncryptMessage(c, message, publicKey) == None
  {
    LongMessageFails(c, message, publicKey);
  }
}

=== FILE: pgp_menu.dfy ===
/**
 * The CLI's PGP menu (`pgp_encryption_menu`) as a state machine over the
 * user's menu choices. The session keeps the last message shown, the current
 * public key and, as the world outside it, the clipboard; the private key is
 * generated on entry and never reassigned.
 */
module PgpMenu {
  import opened Wrappers
  import opened Primitives
  import Pgp

  /**
   * One menu choice, with the outcome of the I/O it performs: whether the
   * exported key file could be written, and the PEM text an import read
   * (None when reading or loading the key raised).
   */
  datatype Choice =
    | EncryptChoice(plaintext: string)       // "1"
    | DecryptChoice(encrypted: string)       // "2"
    | ExportChoice(written: bool)            // "3"
    | ImportChoice(loaded: Option<string>)   // "4"
    | CopyChoice                             // "5"
    | ClearChoice                            // "6"
    | BackChoice                             // "7"
    | InvalidChoice                          // any other input

  datatype Session = Session(publicKey: string, message: string, clipboard: string)

  /**
   * Running: the menu waits for the next choice. Left: the user went back to
   * the main menu. Aborted: an exception the menu does not catch ended it.
   */
  datatype Status = Running | Left | Aborted

  datatype Transition = Transition(session: Session, status: Status)

  /** One pass through the menu loop. */
  function Step(c: Crypto, privateKey: string, s: Session, choice: Choice): (t: Transition)
    ensures t.session.publicKey != s.publicKey ==> choice == ImportChoice(Some(t.session.publicKey))
    ensures t.session.message != s.message ==>
      || (choice.EncryptChoice? && Pgp.EncryptMessage(c, choice.plaintext, s.publicKey) == Some(t.session.message))
      || (choice.DecryptChoice? && Pgp.DecryptMessage(c, choice.encrypted, privateKey) == Some(t.session.message))
    ensures t.session.clipboard != s.clipboard ==>
      || (choice == CopyChoice && s.message != "" && t.session.clipboard == s.message)
      || (choice == ClearChoice && t.session.clipboard == "")
    ensures t.status == Left <==> choice == BackChoice
    ensures t.status == Aborted <==>
      || (choice.EncryptChoice? && Pgp.EncryptMessage(c, choice.plaintext, s.publicKey).None?)
      || (choice.ExportChoice? && !choice.written)
    ensures t.status == Aborted ==> t.session == s
    ensures choice.EncryptChoice? && Pgp.EncryptMessage(c, choice.plaintext, s.publicKey).Some? ==>
      t == Transition(s.(message := Pgp.EncryptMessage(c, choice.plaintext, s.publicKey).value), Running)
    ensures choice.DecryptChoice? && Pgp.DecryptMessage(c, choice.encrypted, privateKey).Some? ==>
      t == Transition(s.(message := Pgp.DecryptMessage(c, choice.encrypted, privateKey).value), Running)
    ensures choice.ImportChoice? && choice.loaded.Some? ==> t == Transition(s.(publicKey := choice.loaded.value), Running)
    ensures choice == CopyChoice && s.message != "" ==> t == Transition(s.(clipboard := s.message), Running)
    ensures choice == ClearChoice ==> t == Transition(s.(clipboard := ""), Running)
  {
    match choice
    case EncryptChoice(plaintext) =>
      // not inside a try: a failing encryption propagates out of the menu
      (match Pgp.EncryptMessage(c, plaintext, s.publicKey)
       case None => Transition(s, Aborted)
       case Some(m) => Transition(s.(message := m), Running))
    case DecryptChoice(encrypted) =>
      (match Pgp.DecryptMessage(c, encrypted, privateKey)
       case None => Transition(s, Running)
       case Some(m) => Transition(s.(message := m), Running))
    case ExportChoice(written) =>
      Transition(s, if written then Running else Aborted)
    case ImportChoice(loaded) =>
      (match loaded
       case None => Transition(s, Running)
       case Some(key) => Transition(s.(publicKey := key), Running))
    case CopyChoice =>
      Transition(if s.message != "" then s.(clipboard := s.message) else s, Running)
    case ClearChoice =>
      Transition(s.(clipboard := ""), Running)
    case BackChoice =>
      Transition(s, Left)
    case InvalidChoice =>
      Transition(s, Running)
  }

  /** The loop over a sequence of choices, until one of them ends it. */
  function Run(c: Crypto, privateKey: string, s: Session, choices: seq<Choice>): Transition
    decreases |choices|
  {
    if |choices| == 0 then Transition(s, Running)
    else
      var t := Step(c, privateKey, s, choices[0]);
      if t.status == Running then Run(c, privateKey, t.session, choices[1..]) else t
  }

  /**
   * `pgp_encryption_menu`, entered with a freshly generated key pair and
   * driven by `choices`; `message` starts empty.
   */
  method PgpEncryptionMenu(c: Crypto, privateKey: string, initialPublicKey: string, initialClipboard: string,
                           choices: seq<Choice>)
    returns (publicKey: string, message: string, clipboard: string, status: Status)
    ensures Transition(Session(publicKey, message, clipboard), status) ==
            Run(c, privateKey, Session(initialPublicKey, "", initialClipboard), choices)
  {
    ghost var start := Session(initialPublicKey, "", initialClipboard);
    publicKey, message, clipboard, status := initialPublicKey, "", initialClipboard, Running;
    var i := 0;
    while i < |choices| && status == Running
      invariant 0 <= i <= |choices|
      invariant status == Running ==>
        Run(c, privateKey, start, choices) == Run(c, privateKey, Session(publicKey, message, clipboard), choices[i..])
      invariant status != Running ==>
        Run(c, privateKey, start, choices) == Transition(Session(publicKey, message, clipboard), status)
    {
      match choices[i] {
      case EncryptChoice(plaintext) =>
        var encrypted := Pgp.EncryptMessage(c, plaintext, publicKey);
        if encrypted.None? {
          status := Aborted;
        } else {
          message := encrypted.value;
        }
      case DecryptChoice(encrypted) =>
        var decrypted := Pgp.DecryptMessage(c, encrypted, privateKey);
        if decrypted.Some? {
          message := decrypted.value;
        }
      case ExportChoice(written) =>
        if !written {
          status := Aborted;
        }
      case ImportChoice(loaded) =>
        if loaded.Some? {
          publicKey := loaded.value;
        }
      case CopyChoice =>
        if message != "" {
          clipboard := message;
        }
      case ClearChoice =>
        clipboard := "";
      case BackChoice =>
        status := Left;
      case InvalidChoice =>
      }
      i := i + 1;
    }
  }

  /** The public key at the end is the initial one or one that an import loaded. */
  lemma {:induction false} PublicKeyOnlyFromImports(c: Crypto, privateKey: string, s: Session, choices: seq<Choice>)
    ensures var k := Run(c, privateKey, s, choices).session.publicKey;
      k == s.publicKey || ImportChoice(Some(k)) in choices
    decreases |choices|
  {
    if |choices| > 0 {
      var t := Step(c, privateKey, s, choices[0]);
      if t.status == Running {
        PublicKeyOnlyFromImports(c, privateKey, t.session, choices[1..]);
        var k := Run(c, privateKey, t.session, choices[1..]).session.publicKey;
        if ImportChoice(Some(k)) in choices[1..] {
          assert ImportChoice(Some(k)) in choices;
        }
      }
    }
  }

  /** Without an encryption or a successful decryption the message never changes. */
  lemma {:induction false} MessageOnlyFromEncryptOrDecrypt(c: Crypto, privateKey: string, s: Session, choices: seq<Choice>)
    requires forall i :: 0 <= i < |choices| ==>
      !choices[i].EncryptChoice? &&
      (choices[i].DecryptChoice? ==> Pgp.DecryptMessage(c, choices[i].encrypted, privateKey).None?)
    ensures Run(c, privateKey, s, choices).session.message == s.message
    decreases |choices|
  {
    if |choices| > 0 {
      var t := Step(c, privateKey, s, choices[0]);
      if t.status == Running {
        MessageOnlyFromEncryptOrDecrypt(c, privateKey, t.session, choices[1..]);
      }
    }
  }

  /**
   * The clipboard changes only by a copy, which never puts an empty message
   * there, or by a clear.
   */
  lemma {:induction false} ClipboardOnlyFromCopyOrClear(c: Crypto, privateKey: string, s: Session, choices: seq<Choice>)
    ensures var k := Run(c, privateKey, s, choices).session.clipboard;
      || k == s.clipboard
      || (k == "" && ClearChoice in choices)
      || (k != "" && CopyChoice in choices)
    decreases |choices|
  {
    if |choices| > 0 {
      var t := Step(c, privateKey, s, choices[0]);
      if t.status == Running {
        ClipboardOnlyFromCopyOrClear(c, privateKey, t.session, choices[1..]);
        if ClearChoice in choices[1..] {
          assert ClearChoice in choices;
        }
        if CopyChoice in choices[1..] {
          assert CopyChoice in choices;
        }
      }
      assert choices[0] in choices;
    }
  }

  /** A failed decryption leaves the whole session as it was. */
  lemma FailedDecryptKeepsSession(c: Crypto, privateKey: string, s: Session, encrypted: string)
    requires Pgp.DecryptMessage(c, encrypted, privateKey).None?
    ensures Step(c, privateKey, s, DecryptChoice(encrypted)) == Transition(s, Running)
  {
  }

  /** Copying with no message leaves the clipboard alone. */
  lemma CopyNeedsMessage(c: Crypto, privateKey: string, s: Session)
    requires s.message == ""
    ensures Step(c, privateKey, s, CopyChoice).session == s
  {
  }

  /**
   * Within a session whose public key still belongs to its private key,
   * decrypting the message just encrypted restores the plaintext.
   */
  lemma EncryptThenDecrypt(c: Crypto, privateKey: string, s: Session, plaintext: string)
    requires OaepLaws(c) && Utf8Laws(c)
    requires c.keyPair(s.publicKey, privateKey)
    requires Step(c, privateKey, s, EncryptChoice(plaintext)).status == Running
    ensures var s1 := Step(c, privateKey, s, EncryptChoice(plaintext)).session;
      Step(c, privateKey, s1, DecryptChoice(s1.message)).session.message == plaintext
  {
    Pgp.DecryptEncrypt(c, plaintext, s.publicKey, privateKey);
  }

  /**
   * A message over the OAEP limit of the session's current public key ends
   * the menu instead of being reported. The limit follows the key: an
   * imported larger key accepts longer messages.
   */
  lemma LongMessageAbortsMenu(c: Crypto, privateKey: string, s: Session, plaintext: string)
    requires OaepLimitLaws(c)
    requires |c.utf8Encode(plaintext)| > OaepMaxMessageFor(c.rsaModulusBytes(s.publicKey))
    ensures Step(c, privateKey, s, EncryptChoice(plaintext)) == Transition(s, Aborted)
  {
    Pgp.LongMessageFails(c, plaintext, s.publicKey);
  }
}

=== FILE: primitives.dfy ===
/**
 * The library primitives the program calls, taken as uninterpreted functions.
 *
 * A `Crypto` value bundles one implementation of each primitive. Nothing is
 * assumed about it except what the predicates below (its "laws") state, and a
 * lemma that needs a law lists it in its `requires`.
 */
module Primitives {
  import opened Wrappers

  type Bytes = seq<bv8>

  /** A 16-byte value, as produced by `os.urandom(16)` for salts and IVs. */
  type Block16 = s: Bytes | |s| == 16 witness seq(16, _ => 0 as bv8)

  /** Length of a SHA-256 digest in bytes (FIPS 180-4). */
  const Sha256Size: nat := 32

  /** AES block size in bytes; CFB mode needs an IV of exactly this length. */
  const AesBlockSize: nat := 16

  /** RSA modulus size in bytes of the generated 2048-bit keys. */
  const RsaModulusSize: nat := 256

  /**
   * Largest RSA-OAEP message with SHA-256 under a key whose modulus takes
   * `modulusBytes` bytes (section 7.1.1 of RFC 8017: k - 2hLen - 2).
   */
  function OaepMaxMessageFor(modulusBytes: nat): int {
    modulusBytes - 2 * Sha256Size - 2
  }

  /** The OAEP limit for the generated 2048-bit keys: 190 bytes. */
  const OaepMaxMessage: int := OaepMaxMessageFor(RsaModulusSize)

  datatype HashAlgorithm = Sha256

  /** The parameters handed to the `PBKDF2HMAC` constructor. */
  datatype KdfParams = KdfParams(algorithm: HashAlgorithm, length: nat, iterations: nat)

  datatype Crypto = Crypto(
    sha256: Bytes -> Bytes,
    /** PBKDF2-HMAC (section 5.2 of RFC 8018): parameters, password, salt. */
    pbkdf2: (KdfParams, Bytes, Bytes) -> Bytes,
    /** AES in CFB mode (NIST SP 800-38A section 6.3): key, IV, data. */
    aesCfbEncrypt: (Bytes, Bytes, Bytes) -> Bytes,
    aesCfbDecrypt: (Bytes, Bytes, Bytes) -> Bytes,
    /** RSA-OAEP with MGF1/SHA-256 under a PEM public key; None when the library raises. */
    rsaOaepEncrypt: (string, Bytes) -> Option<Bytes>,
    /** RSA-OAEP decryption under a PEM private key; None when the library raises. */
    rsaOaepDecrypt: (string, Bytes) -> Option<Bytes>,
    /** The size in bytes of the modulus of a PEM public key (256 for a 2048-bit key). */
    rsaModulusBytes: string -> nat,
    /** Whether a PEM public key and a PEM private key belong to one generated pair. */
    keyPair: (string, string) -> bool,
    /** `str.encode()` and `bytes.decode()` (UTF-8); decoding fails on malformed input. */
    utf8Encode: string -> Bytes,
    utf8Decode: Bytes -> Option<string>)

  ghost predicate Sha256Laws(c: Crypto) {
    forall m :: |c.sha256(m)| == Sha256Size
  }

  ghost predicate Pbkdf2Laws(c: Crypto) {
    forall p, password, salt :: |c.pbkdf2(p, password, salt)| == p.length
  }

  /** The two facts about AES-CFB the file container relies on. */
  ghost predicate CfbLaws(c: Crypto) {
    && (forall key, iv, m :: |c.aesCfbEncrypt(key, iv, m)| == |m|)
    && (forall key, iv, m :: c.aesCfbDecrypt(key, iv, c.aesCfbEncrypt(key, iv, m)) == m)
  }

  /** OAEP decryption inverts encryption under a matching key pair. */
  ghost predicate OaepLaws(c: Crypto) {
    forall pub, priv, m ::
      c.keyPair(pub, priv) && c.rsaOaepEncrypt(pub, m).Some? ==>
        c.rsaOaepDecrypt(priv, c.rsaOaepEncrypt(pub, m).value) == Some(m)
  }

  /** OAEP encryption refuses a message longer than the limit of the key it is given. */
  ghost predicate OaepLimitLaws(c: Crypto) {
    forall pub, m :: |m| > OaepMaxMessageFor(c.rsaModulusBytes(pub)) ==> c.rsaOaepEncrypt(pub, m) == None
  }

  /** UTF-8 decoding inverts encoding. */
  ghost predicate Utf8Laws(c: Crypto) {
    forall s :: c.utf8Decode(c.utf8Encode(s)) == Some(s)
  }
}

=== FILE: safe_db.dfy ===
/** `safe_db_operation`: run a database operation and report a result or an error, never both. */
module SafeDb {
  import opened Wrappers

  const NotConnected: string := "Database not connected"

  /** What the wrapped operation does when called: return a value (Python `None` is `None` here) or raise. */
  datatype Call<T> = Returned(value: Option<T>) | Raised(message: string)

  /** The `(result, error)` pair returned to the route. */
  datatype Reply<T> = Reply(result: Option<T>, error: Option<string>)

  /**
   * `connected` is whether the module-level `db` is set; when it is not, the
   * operation is never called.
   */
  function SafeDbOperation<T>(connected: bool, call: Call<T>): (r: Reply<T>)
    ensures r.result.Some? ==> r.error.None?
    ensures r.error.Some? <==> !connected || call.Raised?
    ensures r.result.Some? ==> connected && call == Returned(r.result)
    ensures !connected ==> r.error == Some(NotConnected)
    ensures connected && call.Raised? ==> r.error == Some(call.message)
    ensures connected && call.Returned? ==> r == Reply(call.value, None)
  {
    if !connected then Reply(None, Some(NotConnected))
    else match call
      case Returned(v) => Reply(v, None)
      case Raised(m) => Reply(None, Some(m))
  }

  /**
   * The three cases of the web application's unit tests: no database, an
   * operation returning "success", and an operation raising "Test exception".
   */
  lemma WebappTestCases()
    ensures SafeDbOperation(false, Returned(Some("test"))) == Reply(None, Some("Database not connected"))
    ensures SafeDbOperation(true, Returned(Some("success"))) == Reply(Some("success"), None)
    ensures SafeDbOperation<string>(true, Raised("Test exception")) == Reply(None, Some("Test exception"))
  {
  }
}

=== FILE: text.dfy ===
/** `str.strip()` with no argument: remove leading and trailing whitespace. */
module Text {

  /** The characters Python's `str.isspace` accepts. */
  predicate IsSpace(c: char) {
    || c == ' ' || '\t' <= c <= '\r' || '\U{1c}' <= c <= '\U{1f}'
    || c == '\U{85}' || c == '\U{a0}' || c == '\U{1680}' || '\U{2000}' <= c <= '\U{200a}'
    || c == '\U{2028}' || c == '\U{2029}' || c == '\U{202f}' || c == '\U{205f}' || c == '\U{3000}'
  }

  /** Every character of `s[lo..hi]` is whitespace. */
  predicate SpacesBetween(s: string, lo: nat, hi: nat)
    requires lo <= hi <= |s|
  {
    forall k :: lo <= k < hi ==> IsSpace(s[k])
  }

  /** The end of the run of whitespace that starts at index `k`. */
  function SpaceRunEnd(s: string, k: nat): (n: nat)
    requires k <= |s|
    ensures k <= n <= |s|
    ensures forall i :: k <= i < n ==> IsSpace(s[i])
    ensures n == |s| || !IsSpace(s[n])
    decreases |s| - k
  {
    if k < |s| && IsSpace(s[k]) then SpaceRunEnd(s, k + 1) else k
  }

  /** The start of the run of whitespace that ends just before index `k`, looking no further back than `lo`. */
  function SpaceRunStart(s: string, lo: nat, k: nat): (m: nat)
    requires lo <= k <= |s|
    ensures lo <= m <= k
    ensures forall i :: m <= i < k ==> IsSpace(s[i])
    ensures m == lo || !IsSpace(s[m - 1])
    decreases k
  {
    if k > lo && IsSpace(s[k - 1]) then SpaceRunStart(s, lo, k - 1) else k
  }

  /**
   * The result is the input with a run of whitespace removed at each end,
   * and neither starts nor ends with whitespace.
   */
  function Strip(s: string): (r: string)
    ensures exists i :: 0 <= i <= |s| - |r| && s[i..i + |r|] == r && SpacesBetween(s, 0, i) && SpacesBetween(s, i + |r|, |s|)
    ensures r == [] || (!IsSpace(r[0]) && !IsSpace(r[|r| - 1]))
  {
    var i := SpaceRunEnd(s, 0);
    var j := SpaceRunStart(s, i, |s|);
    assert j > i ==> s[i..j][0] == s[i] && s[i..j][j - i - 1] == s[j - 1];
    assert SpacesBetween(s, 0, i) && SpacesBetween(s, j, |s|);
    s[i..j]
  }

  /** Stripping twice is stripping once. */
  lemma StripIdempotent(s: string)
    ensures Strip(Strip(s)) == Strip(s)
  {
    var r := Strip(s);
    assert SpaceRunEnd(r, 0) == 0;
    assert SpaceRunStart(r, 0, |r|) == |r|;
  }
}

=== FILE: wrappers.dfy ===
/** Option and Result values for the error paths of the model. */
module Wrappers {

  datatype Option<+T> = None | Some(value: T)

  datatype Result<+T, +E> = Ok(value: T) | Err(error: E)
}
